=== FILE: README.md ===
# Countdown widget — verified model

A Dafny model of the logic inside the countdown widget's `App` component
(`src/App.jsx`). The widget has two parts:

- **The countdown engine** (`calculateCountdown`). It breaks the milliseconds
  left until a target instant into years, months, days, hours, minutes and
  seconds. It uses a fixed 365-day year and a fixed 30-day month. Once the
  target is reached it returns an all-zero breakdown marked `expired`.
- **The session.** This is five pieces of component state (`targetDate`,
  `countdown`, `error`, `loading`, `stopCountdown`) and four events that
  change them:
  - a date change (`handleChange`);
  - a submission (`handleSubmit`), which tries a remote lookup and falls back
    to the engine on any exception;
  - a stop click (`handleStopCountdown`);
  - a firing of the one-second interval set up by the `useEffect` hook.

Files:

- `engine.dfy` (module `Engine`): the engine on integer milliseconds. It also
  has a fully nested reference decomposition, `Carrying`, and lemmas that
  compare the engine with it.
- `jsvalue.dfy` (module `JsValue`): decoded JSON values. It models JavaScript
  truthiness and what reading `v.countdown` or `v.apiSource` yields: a value,
  `undefined`, or a TypeError on `null`.
- `session.dfy` (module `Session`): the state, the four handlers, `Step` and
  `Run` over event sequences, and the session lemmas.

The engine's fields do not carry into each other. `months` is counted from the
remainder after whole years. `days` is counted from the remainder after whole
30-day months of the *full* difference. So the six fields add back up to the
difference exactly when `days` matches the nested decomposition. This always
holds under one year. It fails at exactly 365 days, which reads as one year and
five days. For the same reason the displayed time does not always count down.
More than a year out, it jumps up by nearly 30 days at each 30-day boundary:
390 days ahead reads as one year, and one second later as one year, 29 days,
23:59:59. The nested decomposition never increases as less time remains.

The model follows what `App.jsx` does. Four behaviours are worth knowing. The
first two depart from the component's own comments ("Try different possible
property names from the API" at `src/App.jsx:67`, "Auto-update countdown every
second when using local calculation" at `src/App.jsx:88`):

- **Any truthy body is accepted.** An ok response whose JSON body is truthy
  is kept as the countdown, whatever its shape. An empty object `{}` is kept,
  so it does not fall back to local computation. Only a `null`, `false`, `0`
  or `""` body falls back.
- **Remote values are re-ticked.** The interval runs whenever `countdown` is
  truthy and `countdown.apiSource` is not. Nothing in the component sets
  `apiSource`. So a remote value is replaced by a local breakdown at the first
  tick, unless the payload itself carries a truthy `apiSource`.
- **A tick uses the current date.** The interval reads the `targetDate`
  current when it fires, so changing the date mid-session retargets the
  countdown.
- **Ticking continues after expiry.** The interval keeps running on an
  expired breakdown. Each such tick is a fixed point for an unchanged date.

## Model

| member | source | states |
|---|---|---|
| Engine.Calculate | src/App.jsx:10-43 | expired exactly when the target is not after now; an expired breakdown is all zero; a live one has every field non-negative with seconds and minutes below 60, hours below 24, days below 30 and months at most 12; years counts whole 365-day years in the difference |
| Engine.UnderASecondIsZeroButLive | src/App.jsx:15-41 | less than a second ahead, every field is zero but the breakdown is not expired |
| Engine.ExpiryIsPermanent | src/App.jsx:13-25 | once now has reached the target, every later now gives the same all-zero expired breakdown |
| Engine.MonthsTwelveIffLastFiveDays | src/App.jsx:28 | for a live countdown, months is 12 if and only if the difference modulo 365 days is at least 360 days |
| Engine.PartialReconstruction | src/App.jsx:29-32 | the days, hours, minutes and seconds fields plus the sub-second rest give back the difference modulo 30 days |
| Engine.YearReconstruction | src/App.jsx:27 | the years field times 365 days plus the remainder modulo 365 days gives back the difference |
| Engine.CarryingReconstructs | src/App.jsx:27-32 | the nested reference decomposition is within the unit bounds and its fields add back up to the difference less its sub-second rest |
| Engine.AgreesWithCarryingExceptDays | src/App.jsx:27-32 | the engine equals the nested decomposition in every field except days |
| Engine.FullReconstructionIffDaysCarry | src/App.jsx:27-32 | the six fields add back up to the difference (less its sub-second rest) if and only if days equals the nested decomposition's days |
| Engine.UnderAYearReconstructs | src/App.jsx:27-32 | under 365 days the six fields add back up to the difference |
| Engine.OneYearReadsAsYearAndFiveDays | src/App.jsx:27-29 | exactly 365 days ahead reads as 1 year, 0 months, 5 days, so the fields over-count by five days |
| Engine.NotEveryValidIsOutput | src/App.jsx:27-29 | 0 years, 12 months, 29 days is within the unit bounds yet no difference produces it, since without a whole year twelve months leave fewer than five days |
| Engine.DisplayJumpsUpAtMonthBoundary | src/App.jsx:27-32 | 390 days ahead reads as exactly one year, and one second later as one year, 29 days, 23:59:59, so the time shown grows by 30 days less one second |
| Engine.CarryingCountsDown | src/App.jsx:27-32 | with one second less remaining, the nested decomposition shows exactly one second less |
| Engine.CarryingIsMonotone | src/App.jsx:27-32 | the time shown by the nested decomposition never increases as the remaining time decreases |
| Engine.NinetySeconds | src/App.jsx:27-41 | 90 seconds ahead reads as 1 minute 30 seconds, every other field 0, not expired |
| Engine.ClockSecondsOfRest | src/App.jsx:29-32 | the days, hours, minutes and seconds fields count the whole seconds in the difference modulo 30 days |
| Engine.OneSecondLater | src/App.jsx:29-32 | one second later, the days-to-seconds clock drops by exactly one second, with borrows, unless a 30-day boundary is crossed |
| Engine.SecondsCountDown | src/App.jsx:27-32 | while the seconds field is positive and the target is still ahead, one second later lowers seconds by one and leaves every other field unchanged |
| JsValue.Get | src/App.jsx:68 | reading a property throws exactly on `null`, and finds a value exactly when an object has that key |
| JsValue.Or | src/App.jsx:68 | the JavaScript or-operator yields a truthy value exactly when one side is truthy, and yields the left side when that is truthy |
| JsValue.FalsyHasNoProperties | src/App.jsx:68-73 | on a falsy body, reading `countdown` throws for `null` and is `undefined` otherwise |
| Session.ApiSource | src/App.jsx:90 | reading `apiSource` of a truthy countdown never throws, and is truthy only for a remote value |
| Session.RemoteCountdown | src/App.jsx:61-77 | a value kept from the remote lookup is always truthy |
| Session.RemoteAcceptedIff | src/App.jsx:61-82 | the remote value is kept if and only if the status is ok and the body decodes to a truthy value; the value kept is the body's truthy `countdown` field, else the body |
| Session.HandleChange | src/App.jsx:45-47 | only the target date changes: the countdown, the error, loading and the stop control stay as they were, whether the interval runs is unchanged, and the invariant is kept |
| Session.HandleStopCountdown | src/App.jsx:48-52 | after a stop the countdown is `false` (not `null`), the stop control is withdrawn, the interval cannot run, and the date, error and loading flag are unchanged |
| Session.StopIdempotent | src/App.jsx:48-52 | stopping twice gives the same state as stopping once |
| Session.HandleSubmit | src/App.jsx:53-86 | whatever the outcome, loading ends, no error is shown and the stop control is offered; the countdown is the remote value exactly when the response is ok with a truthy body, and the local breakdown for the current date otherwise |
| Session.TickEnabled | src/App.jsx:90 | the interval runs exactly for a local breakdown, or for a truthy remote value whose `apiSource` is not truthy |
| Session.Tick | src/App.jsx:89-98 | a tick changes only the countdown; when the interval is not running it changes nothing; when it is, the countdown becomes the local breakdown for the current target date at the firing instant, and the interval keeps running |
| Session.Step | src/App.jsx:45-98 | only a date change moves the target date, only a submission or a stop toggles the stop control, a date change leaves the countdown alone, and no event raises an error |
| Session.StepKeepsInv | src/App.jsx:45-98 | every event keeps the invariant: no error, not loading, stop control shown exactly when the countdown is truthy, and any local breakdown is an actual output of the engine for some target and now (hence within its unit bounds) |
| Session.RunKeepsInv | src/App.jsx:45-98 | any sequence of events from a state satisfying the invariant ends in one that satisfies it |
| Session.ReachableInv | src/App.jsx:4-8 | every state reachable from the initial state satisfies the invariant |
| Session.DisabledTicksChangeNothing | src/App.jsx:89-90 | when the interval is not running, any number of firings leave the state unchanged |
| Session.NoTickAfterStop | src/App.jsx:48-98 | after a stop, any number of firings leave the state unchanged |
| Session.ExpiredTickIsFixed | src/App.jsx:89-98 | a tick on an expired local countdown, with the date unchanged and a later now, is a fixed point |
| Session.ExpiredStaysExpired | src/App.jsx:89-98 | an expired local countdown computed for the current target date stays unchanged through any sequence of later firings at or after its expiry instant |
| Session.TickUsesCurrentDate | src/App.jsx:89-98 | a date change followed by a tick recomputes the countdown for the new date |
| Session.RemoteValueIsRecomputed | src/App.jsx:89-93 | a remote value kept by a submission is replaced by a local breakdown at the next tick unless its payload has a truthy `apiSource` |
| Session.ServerErrorFallsBack | src/App.jsx:75-82 | a status 500 response falls back to the local breakdown, with no error shown |
| Session.EmptyObjectIsAccepted | src/App.jsx:67-71 | an ok response with an empty object body is kept as the countdown |
| Session.TickOneSecondLater | src/App.jsx:89-93 | for a live local countdown with positive seconds, a tick one second later lowers seconds by one and changes nothing else |

## Left out

- Rendering (`src/App.jsx:100-219`) is left out: the panels, the `!== undefined` and `|| 0` display logic, and the disabled states of the buttons. A stop click is modelled as the handler itself. Whether the button is on screen does not change what the handler does.
- `fetch`, `response.json()` and the console logging (`src/App.jsx:61-65, 79`) are I/O. A submission instead receives the outcome as a `Response` value: a network error, or a status with a body that decoded to JSON or failed to. The dependence of that response on the date in the request URL is not modelled.
- Date parsing (`new Date(string)`) is the parameter `instant: string -> int`, and the clock is the `now` argument of submissions and ticks. An unparseable date gives `NaN` in JavaScript, and the component has no handling for it. The model assumes every date maps to an integer instant.
- Floating point is not modelled. `Math.floor` and `%` on doubles are modelled on unbounded integers. This is exact for millisecond differences in the safe-integer range, because the difference is positive wherever they are used.
- Interval timing, React effect scheduling and interval cleanup are not modelled. A tick is a discrete event. That at most one interval exists at a time is a framework guarantee.
- The `await` inside `handleSubmit` is not modelled as a pause: a submission is one atomic event. The intermediate state (`loading` true, `countdown` null) is not a reachable state of the model. A date change while the request is pending is not modelled either. The handler's request and its fallback both use the date in effect when the submission starts, and the atomic event preserves that.
- JsValue.Get: models reads of the `countdown` and `apiSource` properties only. Built-in properties such as a string's `length` are never read by the component.
- JSON numbers are reals in the model. Only whether a number is zero affects the component, and JSON has no `NaN`.

=== FILE: engine.dfy ===
/**
 The countdown engine: a pure breakdown of the milliseconds left until a
 target instant into years, months, days, hours, minutes and seconds, using
 a fixed 365-day year and a fixed 30-day month.

 Instants are integer milliseconds (the values `Date.getTime()` returns).
 The fields are NOT a carrying decomposition: months are counted from the
 remainder after whole years, but days are counted from the remainder after
 whole 30-day months of the full difference. `Carrying` below is the fully
 nested decomposition, used as the reference the engine is compared with.
 */
module Engine {

  const SecondMs: int := 1000
  const MinuteMs: int := 60000
  const HourMs: int := 3600000
  const DayMs: int := 86400000
  const MonthMs: int := 2592000000    // 30 days
  const YearMs: int := 31536000000    // 365 days

  /** A breakdown of the remaining time, as the source's countdown object. */
  datatype Breakdown = Breakdown(
    years: int,
    months: int,
    days: int,
    hours: int,
    minutes: int,
    seconds: int,
    expired: bool)

  /** The all-zero, expired breakdown returned once the target is reached. */
  const ExpiredBreakdown := Breakdown(0, 0, 0, 0, 0, 0, true)

  /** Every field is non-negative and within the bound its unit allows.
      Months may reach 12: the last five days of a 365-day year are a
      thirteenth, partial, 30-day month. */
  predicate InRange(b: Breakdown) {
    && 0 <= b.years
    && 0 <= b.months <= 12
    && 0 <= b.days < 30
    && 0 <= b.hours < 24
    && 0 <= b.minutes < 60
    && 0 <= b.seconds < 60
  }

  /** The unit bounds every output of the engine respects: the expired
      breakdown, or a live one within range. Not every such breakdown is an
      output; see `NotEveryValidIsOutput`. */
  predicate Valid(b: Breakdown) {
    if b.expired then b == ExpiredBreakdown else InRange(b)
  }

  /** The breakdowns the engine does produce, for some target and now. */
  ghost predicate IsOutput(b: Breakdown) {
    exists t: int, n: int :: b == Calculate(t, n)
  }

  /** Milliseconds covered by the days, hours, minutes and seconds fields. */
  function ClockMs(b: Breakdown): int {
    b.days * DayMs + b.hours * HourMs + b.minutes * MinuteMs + b.seconds * SecondMs
  }

  /** Milliseconds covered by all six fields together. */
  function TotalMs(b: Breakdown): int {
    b.years * YearMs + b.months * MonthMs + ClockMs(b)
  }

  /** The whole seconds covered by the days, hours, minutes and seconds fields. */
  function ClockSeconds(b: Breakdown): int {
    b.days * 86400 + b.hours * 3600 + b.minutes * 60 + b.seconds
  }

  /** `calculateCountdown`: the breakdown of `target - now`. */
  function Calculate(target: int, now: int): (b: Breakdown)
    ensures b.expired <==> target <= now
    ensures Valid(b)
    ensures !b.expired ==> b.years * YearMs <= target - now < (b.years + 1) * YearMs
  {
    var d := target - now;
    if d <= 0 then
      ExpiredBreakdown
    else
      Breakdown(
        d / YearMs,
        (d % YearMs) / MonthMs,
        (d % MonthMs) / DayMs,
        (d % DayMs) / HourMs,
        (d % HourMs) / MinuteMs,
        (d % MinuteMs) / SecondMs,
        false)
  }

  /** The fully nested decomposition: each unit is taken from the remainder
      left by the unit above it. */
  function Carrying(d: int): (b: Breakdown)
    requires d > 0
  {
    var inYear := d % YearMs;
    var inMonth := inYear % MonthMs;
    var inDay := inMonth % DayMs;
    var inHour := inDay % HourMs;
    var inMinute := inHour % MinuteMs;
    Breakdown(
      d / YearMs,
      inYear / MonthMs,
      inMonth / DayMs,
      inDay / HourMs,
      inHour / MinuteMs,
      inMinute / SecondMs,
      false)
  }

  /** Splitting `x` at a unit `u` and then at a unit `v` that divides `u`. */
  lemma {:induction false} SplitAt(x: int, u: int, v: int, k: int)
    requires x >= 0 && v > 0 && u == k * v && k > 0
    ensures x % u == ((x % u) / v) * v + x % v
    ensures (x % u) % v == x % v
  {
    var q := x / u;
    var r := x % u;
    assert x == q * u + r;
    assert x == (q * k) * v + r;
    var q2 := r / v;
    var r2 := r % v;
    assert r == q2 * v + r2 && 0 <= r2 < v;
    assert x == (q * k + q2) * v + r2;
    ModUnique(x, v, q * k + q2, r2);
  }

  /** Euclidean division is unique. */
  lemma {:induction false} ModUnique(x: int, v: int, q: int, r: int)
    requires v > 0 && 0 <= r < v && x == q * v + r
    ensures x % v == r && x / v == q
  {
    var q' := x / v;
    var r' := x % v;
    assert x == q' * v + r';
    assert (q - q') * v == r' - r;
    if q > q' {
      assert (q - q') * v >= v by { MulMono(q - q', v); }
      assert false;
    } else if q < q' {
      assert (q' - q) * v >= v by { MulMono(q' - q, v); }
      assert false;
    }
  }

  lemma MulMono(a: int, v: int)
    requires a >= 1 && v > 0
    ensures a * v >= v
  {
  }

  /** The days, hours, minutes and seconds fields, together with the
      sub-second rest, give back the difference modulo a 30-day month. */
  lemma {:induction false} PartialReconstruction(target: int, now: int)
    requires target > now
    ensures var b := Calculate(target, now);
      ClockMs(b) + (target - now) % SecondMs == (target - now) % MonthMs
  {
    var d := target - now;
    var b := Calculate(target, now);
    SplitAt(d, MonthMs, DayMs, 30);
    SplitAt(d, DayMs, HourMs, 24);
    SplitAt(d, HourMs, MinuteMs, 60);
    SplitAt(d, MinuteMs, SecondMs, 60);
  }

  /** The years field and the remainder modulo a 365-day year give back the
      difference. */
  lemma YearReconstruction(target: int, now: int)
    requires target > now
    ensures var b := Calculate(target, now);
      b.years * YearMs + (target - now) % YearMs == target - now
  {
  }

  /** The nested decomposition loses nothing but the sub-second rest. */
  lemma {:induction false} CarryingReconstructs(d: int)
    requires d > 0
    ensures TotalMs(Carrying(d)) + d % SecondMs == d
    ensures InRange(Carrying(d))
  {
    var inYear := d % YearMs;
    SplitAt(d, YearMs, DayMs, 365);
    SplitAt(inYear, MonthMs, DayMs, 30);
    SplitAt(inYear % MonthMs, DayMs, HourMs, 24);
    SplitAt(inYear % MonthMs, HourMs, MinuteMs, 60);
    SplitAt(inYear % MonthMs, MinuteMs, SecondMs, 60);
    SplitAt(d, DayMs, SecondMs, 86400);
    SplitAt(inYear, DayMs, SecondMs, 86400);
    SplitAt(inYear % MonthMs, DayMs, SecondMs, 86400);
    SplitAt(inYear, MonthMs, SecondMs, 2592000);
    SplitAt(d, YearMs, SecondMs, 31536000);
    ModUnique(d, YearMs, d / YearMs, inYear);
    ModUnique(inYear, MonthMs, inYear / MonthMs, inYear % MonthMs);
  }

  /** The engine agrees with the nested decomposition on every field but
      days; all its other fields are carrying. */
  lemma {:induction false} AgreesWithCarryingExceptDays(target: int, now: int)
    requires target > now
    ensures var b := Calculate(target, now);
      var c := Carrying(target - now);
      b.(days := c.days) == c
  {
    var d := target - now;
    var inYear := d % YearMs;
    var inMonth := inYear % MonthMs;
    SplitAt(d, YearMs, DayMs, 365);
    SplitAt(inYear, MonthMs, DayMs, 30);
    assert inMonth % DayMs == d % DayMs;
    SplitAt(d, DayMs, HourMs, 24);
    SplitAt(inMonth, DayMs, HourMs, 24);
    SplitAt(d, HourMs, MinuteMs, 60);
    SplitAt(inMonth, HourMs, MinuteMs, 60);
    SplitAt(d, DayMs, MinuteMs, 1440);
    SplitAt(inMonth, DayMs, MinuteMs, 1440);
  }

  /** The six fields add back up to the difference (less its sub-second
      rest) exactly when the days field agrees with the nested one. */
  lemma {:induction false} FullReconstructionIffDaysCarry(target: int, now: int)
    requires target > now
    ensures var b := Calculate(target, now);
      var whole := TotalMs(b) + (target - now) % SecondMs == target - now;
      whole <==> b.days == Carrying(target - now).days
  {
    var d := target - now;
    var b := Calculate(target, now);
    var c := Carrying(d);
    AgreesWithCarryingExceptDays(target, now);
    CarryingReconstructs(d);
    assert TotalMs(b) - TotalMs(c) == (b.days - c.days) * DayMs;
    if b.days != c.days {
      if b.days > c.days {
        MulMono(b.days - c.days, DayMs);
      } else {
        MulMono(c.days - b.days, DayMs);
      }
    }
  }

  /** Under one year the fields do add back up to the difference. */
  lemma {:induction false} UnderAYearReconstructs(target: int, now: int)
    requires 0 < target - now < YearMs
    ensures var b := Calculate(target, now);
      TotalMs(b) + (target - now) % SecondMs == target - now
  {
    var d := target - now;
    ModUnique(d, YearMs, 0, d);
    FullReconstructionIffDaysCarry(target, now);
  }

  /** The months field reaches 12 exactly in the last five days of a 365-day
      year. */
  lemma {:induction false} MonthsTwelveIffLastFiveDays(target: int, now: int)
    requires target > now
    ensures Calculate(target, now).months == 12 <==> (target - now) % YearMs >= 360 * DayMs
  {
    var r := (target - now) % YearMs;
    if r >= 360 * DayMs {
      ModUnique(r, MonthMs, 12, r - 360 * DayMs);
    }
  }

  /** Twelve months and 29 days with no years is within the unit bounds, but
      no difference yields it: with no whole year, twelve months leave fewer
      than five days. */
  lemma NotEveryValidIsOutput()
    ensures Valid(Breakdown(0, 12, 29, 0, 0, 0, false))
    ensures !IsOutput(Breakdown(0, 12, 29, 0, 0, 0, false))
  {
  }

  /** A difference of exactly 365 days reads as one year and five days: the
      fields over-count the difference by five days. */
  lemma OneYearReadsAsYearAndFiveDays(now: int)
    ensures var b := Calculate(now + YearMs, now);
      && b == Breakdown(1, 0, 5, 0, 0, 0, false)
      && TotalMs(b) == YearMs + 5 * DayMs
  {
  }

  /** At a 30-day boundary more than a year out, the displayed time jumps
      up: 390 days ahead reads as exactly one year, but one second later it
      reads as one year, 29 days, 23:59:59, nearly 30 days more. */
  lemma DisplayJumpsUpAtMonthBoundary(now: int)
    ensures Calculate(now + 390 * DayMs, now) == Breakdown(1, 0, 0, 0, 0, 0, false)
    ensures Calculate(now + 390 * DayMs, now + SecondMs) == Breakdown(1, 0, 29, 23, 59, 59, false)
    ensures TotalMs(Calculate(now + 390 * DayMs, now + SecondMs))
         == TotalMs(Calculate(now + 390 * DayMs, now)) + 30 * DayMs - SecondMs
  {
  }

  /** The nested decomposition counts down steadily: one second less
      remaining shows exactly one second less. */
  lemma {:induction false} CarryingCountsDown(d: int)
    requires d > SecondMs
    ensures TotalMs(Carrying(d - SecondMs)) == TotalMs(Carrying(d)) - SecondMs
  {
    CarryingReconstructs(d);
    CarryingReconstructs(d - SecondMs);
    ModUnique(d - SecondMs, SecondMs, d / SecondMs - 1, d % SecondMs);
  }

  /** More generally, the time shown by the nested decomposition never
      increases as less time remains. */
  lemma {:induction false} CarryingIsMonotone(d: int, e: int)
    requires 0 < e <= d
    ensures TotalMs(Carrying(e)) <= TotalMs(Carrying(d))
  {
    CarryingReconstructs(d);
    CarryingReconstructs(e);
    assert TotalMs(Carrying(d)) == (d / SecondMs) * SecondMs;
    assert TotalMs(Carrying(e)) == (e / SecondMs) * SecondMs;
    DivMono(e, d);
  }

  /** Whole seconds grow with milliseconds. */
  lemma DivMono(e: int, d: int)
    requires 0 <= e <= d
    ensures e / SecondMs <= d / SecondMs
  {
  }

  /** Ninety seconds ahead reads as one minute and thirty seconds. */
  lemma NinetySeconds(now: int)
    ensures Calculate(now + 90000, now) == Breakdown(0, 0, 0, 0, 1, 30, false)
  {
  }

  /** Less than a second ahead: every field is zero yet the countdown is not
      expired. */
  lemma UnderASecondIsZeroButLive(target: int, now: int)
    requires 0 < target - now < SecondMs
    ensures Calculate(target, now) == Breakdown(0, 0, 0, 0, 0, 0, false)
  {
  }

  /** Once `now` has reached the target, every later `now` gives the same
      expired breakdown. */
  lemma ExpiryIsPermanent(target: int, now: int, later: int)
    requires target <= now <= later
    ensures Calculate(target, later) == Calculate(target, now) == ExpiredBreakdown
  {
  }

  /** A tick one second later takes exactly one second off the days, hours,
      minutes and seconds fields, with borrows, as long as the difference
      does not cross a 30-day month boundary. */
  lemma {:induction false} OneSecondLater(target: int, now: int)
    requires target > now
    requires (target - now) % MonthMs >= SecondMs
    ensures ClockSeconds(Calculate(target, now + SecondMs))
         == ClockSeconds(Calculate(target, now)) - 1
  {
    var d := target - now;
    var before := ClockSeconds(Calculate(target, now));
    var after := ClockSeconds(Calculate(target, now + SecondMs));
    ClockSecondsOfRest(target, now);
    assert before == (d % MonthMs) / SecondMs;
    SecondOffRest(d);
    if target - (now + SecondMs) > 0 {
      ClockSecondsOfRest(target, now + SecondMs);
      assert after == ((d - SecondMs) % MonthMs) / SecondMs;
    } else {
      assert Calculate(target, now + SecondMs) == ExpiredBreakdown;
      assert after == 0;
    }
  }

  /** One second less, read modulo a 30-day month in whole seconds, is one
      less, as long as no month boundary is crossed. */
  lemma {:induction false} SecondOffRest(d: int)
    requires d > 0 && d % MonthMs >= SecondMs
    ensures ((d - SecondMs) % MonthMs) / SecondMs == (d % MonthMs) / SecondMs - 1
    ensures d - SecondMs <= 0 ==> (d % MonthMs) / SecondMs == 1
  {
    var r := d % MonthMs;
    ModUnique(d - SecondMs, MonthMs, d / MonthMs, r - SecondMs);
    ModUnique(r - SecondMs, SecondMs, r / SecondMs - 1, r % SecondMs);
  }

  /** The clock fields count the whole seconds in the difference modulo a
      30-day month. */
  lemma {:induction false} ClockSecondsOfRest(target: int, now: int)
    requires target > now
    ensures ClockSeconds(Calculate(target, now)) == ((target - now) % MonthMs) / SecondMs
  {
    var d := target - now;
    var b := Calculate(target, now);
    PartialReconstruction(target, now);
    assert ClockMs(b) == ClockSeconds(b) * SecondMs;
    ModUnique(d % MonthMs, SecondMs, ClockSeconds(b), d % SecondMs);
  }

  /** While the seconds field is positive, a tick one second later lowers it
      by one and leaves every other field as it was. */
  lemma {:induction false} SecondsCountDown(target: int, now: int)
    requires target - (now + SecondMs) > 0
    requires Calculate(target, now).seconds >= 1
    ensures Calculate(target, now + SecondMs)
         == Calculate(target, now).(seconds := Calculate(target, now).seconds - 1)
  {
    var d := target - now;
    var r := d % MinuteMs;
    assert r >= SecondMs;
    ShiftDown(d, YearMs, 525600);
    ShiftDown(d, MonthMs, 43200);
    ShiftDown(d, DayMs, 1440);
    ShiftDown(d, HourMs, 60);
    ShiftDown(d, MinuteMs, 1);
    ShiftDown(d % YearMs, MonthMs, 43200);
    ShiftDown(d % MonthMs, DayMs, 1440);
    ShiftDown(d % DayMs, HourMs, 60);
    ShiftDown(d % HourMs, MinuteMs, 1);
    ModUnique(r, SecondMs, (r - SecondMs) / SecondMs + 1, (r - SecondMs) % SecondMs);
  }

  /** Taking one second off `x` does not cross a boundary of a unit that is a
      whole number of minutes, when `x` is at least one second into its minute. */
  lemma {:induction false} ShiftDown(x: int, u: int, k: int)
    requires x >= 0 && k > 0 && u == k * MinuteMs
    requires x % MinuteMs >= SecondMs
    ensures (x - SecondMs) % u == x % u - SecondMs
    ensures (x - SecondMs) / u == x / u
    ensures (x % u) % MinuteMs == x % MinuteMs
  {
    SplitAt(x, u, MinuteMs, k);
    ModUnique(x - SecondMs, u, x / u, x % u - SecondMs);
  }
}

=== FILE: jsvalue.dfy ===
/**
 The JavaScript values a JSON response body can decode to, with the two
 JavaScript rules the countdown logic relies on: truthiness, and what
 reading a property (`v.countdown`, `v.apiSource`) yields.
 */
module JsValue {

  /** A decoded JSON value. Numbers are kept as reals: only whether a number
      is zero matters here. */
  datatype Json =
    | JNull
    | JBool(b: bool)
    | JNumber(n: real)
    | JString(s: string)
    | JArray(items: seq<Json>)
    | JObject(fields: map<string, Json>)

  /** JavaScript truthiness: `null`, `false`, `0` and `""` are falsy; every
      other value, including an empty array or object, is truthy. */
  predicate Truthy(v: Json) {
    match v
    case JNull => false
    case JBool(b) => b
    case JNumber(n) => n != 0.0
    case JString(s) => s != ""
    case JArray(_) => true
    case JObject(_) => true
  }

  /** The property names the countdown logic reads. Neither is a built-in
      property of strings, arrays or plain objects. */
  datatype Key = CountdownKey | ApiSourceKey

  function KeyName(k: Key): string {
    match k
    case CountdownKey => "countdown"
    case ApiSourceKey => "apiSource"
  }

  /** The outcome of a property read: reading from `null` throws a TypeError,
      a missing property is `undefined`. */
  datatype Read = TypeError | Undefined | Found(value: Json)

  /** `v.k` */
  function Get(v: Json, k: Key): (r: Read)
    ensures r.TypeError? <==> v.JNull?
    ensures r.Found? <==> v.JObject? && KeyName(k) in v.fields
    ensures r.Found? ==> r.value == v.fields[KeyName(k)]
  {
    match v
    case JNull => TypeError
    case JObject(fields) =>
      if KeyName(k) in fields then Found(fields[KeyName(k)]) else Undefined
    case _ => Undefined
  }

  /** Whether a read that did not throw yields a truthy value; `undefined` is
      falsy. */
  predicate TruthyRead(r: Read) {
    r.Found? && Truthy(r.value)
  }

  /** `a || b` where `a` is the result of a property read: `a` when it is
      truthy, `b` otherwise. */
  function Or(a: Read, b: Json): (r: Json)
    requires !a.TypeError?
    ensures Truthy(r) <==> TruthyRead(a) || Truthy(b)
    ensures TruthyRead(a) ==> a == Found(r)
    ensures !TruthyRead(a) ==> r == b
  {
    if TruthyRead(a) then a.value else b
  }

  /** A falsy value is a primitive: reading a property of it yields
      `undefined`, unless it is `null`, where the read throws. */
  lemma FalsyHasNoProperties(v: Json, k: Key)
    requires !Truthy(v)
    ensures Get(v, k) == (if v.JNull? then TypeError else Undefined)
  {
  }
}

=== FILE: session.dfy ===
/**
 The countdown session: the five pieces of component state, and the four
 events that change them — a date change, a submission with its remote
 outcome, a stop click and a firing of the one-second interval.

 Time and the network are inputs: a submission carries the response the
 remote lookup produced and the instant the fallback runs at, a tick carries
 the instant it fires at, and `instant` maps a date string to milliseconds.
 */
module Session {
  import opened Engine
  import opened JsValue

  datatype Option<T> = None | Some(value: T)

  /** The `countdown` state: `null` before any submission, `false` after a
      stop, a locally computed breakdown, or whatever the remote lookup
      returned. */
  datatype CountdownValue =
    | Null
    | False
    | Local(breakdown: Breakdown)
    | Remote(payload: Json)

  datatype State = State(
    targetDate: string,
    countdown: CountdownValue,
    error: Option<string>,
    loading: bool,
    stopCountdown: bool)

  const InitialDate: string := "2025-07-30"

  const Initial := State(InitialDate, Null, None, false, false)

  /** The result of the remote lookup: the request failed, or a response
      arrived with a status and a body that decoded to JSON (`None` when
      decoding it failed). */
  datatype Response =
    | NetworkError
    | Received(status: int, body: Option<Json>)

  /** `response.ok`: a status in the range 200 to 299. */
  predicate IsOk(status: int) {
    200 <= status <= 299
  }

  predicate IsTruthy(c: CountdownValue) {
    match c
    case Null => false
    case False => false
    case Local(_) => true
    case Remote(v) => Truthy(v)
  }

  /** `countdown.apiSource`, read once `countdown` is known to be truthy. A
      locally computed breakdown has no such field. */
  function ApiSource(c: CountdownValue): (r: Read)
    requires IsTruthy(c)
    ensures !r.TypeError?
    ensures TruthyRead(r) ==> c.Remote?
  {
    if c.Remote? then Get(c.payload, ApiSourceKey) else Undefined
  }

  /** Whether the one-second interval is running: `countdown` is truthy and
      its `apiSource` is not. */
  predicate TickEnabled(s: State): (enabled: bool)
    ensures enabled <==>
      || s.countdown.Local?
      || (s.countdown.Remote? && Truthy(s.countdown.payload)
          && !TruthyRead(Get(s.countdown.payload, ApiSourceKey)))
  {
    IsTruthy(s.countdown) && !TruthyRead(ApiSource(s.countdown))
  }

  /** The value a submission keeps from the remote lookup, or `None` when an
      exception sends it to the local fallback: a failed request, a status
      that is not ok, a body that does not decode, a `null` body (reading
      `data.countdown` throws) or a falsy `data.countdown || data`. */
  function RemoteCountdown(resp: Response): (v: Option<Json>)
    ensures v.Some? ==> Truthy(v.value)
  {
    match resp
    case NetworkError => None
    case Received(status, body) =>
      if !IsOk(status) then None
      else match body
        case None => None
        case Some(data) =>
          var field := Get(data, CountdownKey);
          if field.TypeError? then None
          else
            var countdownData := Or(field, data);
            if Truthy(countdownData) then Some(countdownData) else None
  }

  /** The remote value is kept exactly when the response is ok and its body
      decodes to a truthy value, whatever its shape; the value kept is the
      body's `countdown` field when that is truthy, else the body itself. */
  lemma RemoteAcceptedIff(resp: Response)
    ensures RemoteCountdown(resp).Some?
        <==> resp.Received? && IsOk(resp.status) && resp.body.Some? && Truthy(resp.body.value)
    ensures RemoteCountdown(resp).Some? ==>
        var data := resp.body.value;
        RemoteCountdown(resp).value
          == if TruthyRead(Get(data, CountdownKey)) then Get(data, CountdownKey).value else data
  {
    if resp.Received? && IsOk(resp.status) && resp.body.Some? && !Truthy(resp.body.value) {
      FalsyHasNoProperties(resp.body.value, CountdownKey);
    }
  }

  /** `handleChange`: only the date moves; the countdown shown, and whether
      the interval runs, are as before. */
  function HandleChange(s: State, value: string): (r: State)
    ensures r.targetDate == value
    ensures r.countdown == s.countdown && TickEnabled(r) == TickEnabled(s)
    ensures r.error == s.error && r.loading == s.loading && r.stopCountdown == s.stopCountdown
    ensures Inv(s) ==> Inv(r)
  {
    s.(targetDate := value)
  }

  /** `handleStopCountdown`: the countdown becomes `false`, which is kept
      apart from the `null` of a session not yet submitted. */
  function HandleStopCountdown(s: State): (r: State)
    ensures r.countdown == False
    ensures !TickEnabled(r) && !r.stopCountdown && !IsTruthy(r.countdown)
    ensures r.targetDate == s.targetDate && r.error == s.error && r.loading == s.loading
  {
    s.(countdown := False, stopCountdown := false)
  }

  /** `handleSubmit`, with the awaited request resolved to `resp` and the
      fallback computed at `now`. Whatever the outcome, loading ends, no error
      is shown and the stop control is offered; the countdown is the remote
      value exactly when the response is ok with a truthy body, and the local
      breakdown for the current target date otherwise. */
  function HandleSubmit(s: State, resp: Response, now: int, instant: string -> int): (r: State)
    ensures !r.loading && r.error == None && r.stopCountdown
    ensures r.targetDate == s.targetDate
    ensures IsTruthy(r.countdown)
    ensures r.countdown.Remote?
        <==> resp.Received? && IsOk(resp.status) && resp.body.Some? && Truthy(resp.body.value)
    ensures r.countdown.Remote? ==>
        var data := resp.body.value;
        r.countdown.payload
          == if TruthyRead(Get(data, CountdownKey)) then Get(data, CountdownKey).value else data
    ensures !r.countdown.Remote? ==> r.countdown == Local(Calculate(instant(s.targetDate), now))
  {
    RemoteAcceptedIff(resp);
    var started := s.(error := None, countdown := Null, loading := true, stopCountdown := true);
    var shown :=
      match RemoteCountdown(resp)
      case Some(v) => Remote(v)
      case None => Local(Calculate(instant(s.targetDate), now));
    started.(countdown := shown, loading := false)
  }

  /** One firing of the interval at `now`: when it is running, the countdown
      is recomputed for the target date current at that moment. */
  function Tick(s: State, now: int, instant: string -> int): (r: State)
    ensures r.targetDate == s.targetDate && r.error == s.error
    ensures r.loading == s.loading && r.stopCountdown == s.stopCountdown
    ensures !TickEnabled(s) ==> r == s
    ensures TickEnabled(s) ==> r.countdown == Local(Calculate(instant(s.targetDate), now))
    ensures TickEnabled(s) ==> TickEnabled(r)
  {
    if TickEnabled(s) then s.(countdown := Local(Calculate(instant(s.targetDate), now))) else s
  }

  datatype Event =
    | DateChanged(value: string)
    | Submitted(response: Response, now: int)
    | StopClicked
    | IntervalFired(now: int)

  /** Dispatches an event to its handler. Only a date change moves the
      target date, only a submission or a stop toggles the stop control, a
      date change never touches the countdown, and no event raises an error. */
  function Step(s: State, e: Event, instant: string -> int): (r: State)
    ensures r.targetDate != s.targetDate ==> e.DateChanged?
    ensures r.stopCountdown != s.stopCountdown ==> e.Submitted? || e.StopClicked?
    ensures e.DateChanged? ==> r.countdown == s.countdown
    ensures r.error == s.error || r.error == None
  {
    match e
    case DateChanged(value) => HandleChange(s, value)
    case Submitted(resp, now) => HandleSubmit(s, resp, now, instant)
    case StopClicked => HandleStopCountdown(s)
    case IntervalFired(now) => Tick(s, now, instant)
  }

  function Run(s: State, es: seq<Event>, instant: string -> int): State
    decreases |es|
  {
    if es == [] then s else Run(Step(s, es[0], instant), es[1..], instant)
  }

  /** What holds between events: no error is ever shown, nothing is left
      loading, the stop control is offered exactly when a countdown is shown,
      and a local countdown is an output of the engine (so within its unit
      bounds). */
  ghost predicate Inv(s: State) {
    && s.error == None
    && !s.loading
    && (s.stopCountdown <==> IsTruthy(s.countdown))
    && (s.countdown.Local? ==> IsOutput(s.countdown.breakdown) && Valid(s.countdown.breakdown))
  }

  lemma StepKeepsInv(s: State, e: Event, instant: string -> int)
    requires Inv(s)
    ensures Inv(Step(s, e, instant))
  {
    match e
    case DateChanged(_) =>
    case StopClicked =>
    case Submitted(resp, now) =>
      var r := Step(s, e, instant);
      if r.countdown.Local? {
        assert r.countdown.breakdown == Calculate(instant(s.targetDate), now);
      }
    case IntervalFired(now) =>
      var r := Step(s, e, instant);
      if TickEnabled(s) {
        assert r.countdown.breakdown == Calculate(instant(s.targetDate), now);
      }
  }

  /** Every state reachable from the initial one satisfies `Inv`. */
  lemma {:induction false} RunKeepsInv(s: State, es: seq<Event>, instant: string -> int)
    requires Inv(s)
    ensures Inv(Run(s, es, instant))
    decreases |es|
  {
    if es != [] {
      StepKeepsInv(s, es[0], instant);
      RunKeepsInv(Step(s, es[0], instant), es[1..], instant);
    }
  }

  lemma ReachableInv(es: seq<Event>, instant: string -> int)
    ensures Inv(Run(Initial, es, instant))
  {
    RunKeepsInv(Initial, es, instant);
  }

  /** Stopping twice is stopping once. */
  lemma StopIdempotent(s: State)
    ensures HandleStopCountdown(HandleStopCountdown(s)) == HandleStopCountdown(s)
  {
  }

  /** `n` firings of the interval, at the given instants. */
  function Ticks(nows: seq<int>): (es: seq<Event>)
    ensures |es| == |nows|
    ensures forall i :: 0 <= i < |es| ==> es[i] == IntervalFired(nows[i])
  {
    if nows == [] then [] else [IntervalFired(nows[0])] + Ticks(nows[1..])
  }

  /** A state whose interval is not running is left alone by any number of
      firings. */
  lemma {:induction false} DisabledTicksChangeNothing(s: State, nows: seq<int>, instant: string -> int)
    requires !TickEnabled(s)
    ensures Run(s, Ticks(nows), instant) == s
    decreases |nows|
  {
    if nows != [] {
      assert Ticks(nows)[1..] == Ticks(nows[1..]);
      DisabledTicksChangeNothing(s, nows[1..], instant);
    }
  }

  /** After a stop, firings of the interval change nothing. */
  lemma NoTickAfterStop(s: State, nows: seq<int>, instant: string -> int)
    ensures Run(HandleStopCountdown(s), Ticks(nows), instant) == HandleStopCountdown(s)
  {
    DisabledTicksChangeNothing(HandleStopCountdown(s), nows, instant);
  }

  /** A tick on an expired local countdown, for an unchanged target date and
      any instant not before the one it expired at, is a fixed point. */
  lemma ExpiredTickIsFixed(s: State, expiredAt: int, now: int, instant: string -> int)
    requires s.countdown == Local(Calculate(instant(s.targetDate), expiredAt))
    requires s.countdown.breakdown.expired
    requires expiredAt <= now
    ensures Tick(s, now, instant) == s
  {
    ExpiryIsPermanent(instant(s.targetDate), expiredAt, now);
  }

  /** Once expired, the countdown stays as it is through any later firings. */
  lemma {:induction false} ExpiredStaysExpired(s: State, expiredAt: int, nows: seq<int>, instant: string -> int)
    requires s.countdown == Local(Calculate(instant(s.targetDate), expiredAt))
    requires s.countdown.breakdown.expired
    requires forall i :: 0 <= i < |nows| ==> expiredAt <= nows[i]
    ensures Run(s, Ticks(nows), instant) == s
    decreases |nows|
  {
    if nows != [] {
      ExpiredTickIsFixed(s, expiredAt, nows[0], instant);
      assert Ticks(nows)[1..] == Ticks(nows[1..]);
      ExpiredStaysExpired(s, expiredAt, nows[1..], instant);
    }
  }

  /** A tick reads the target date current when it fires: changing the date
      while the interval runs retargets the countdown. */
  lemma TickUsesCurrentDate(s: State, value: string, now: int, instant: string -> int)
    requires TickEnabled(s)
    ensures Run(s, [DateChanged(value), IntervalFired(now)], instant).countdown
         == Local(Calculate(instant(value), now))
  {
    var es := [DateChanged(value), IntervalFired(now)];
    var moved := HandleChange(s, value);
    assert es[1..] == [IntervalFired(now)] && es[1..][1..] == [];
    assert Run(s, es, instant) == Run(moved, [IntervalFired(now)], instant);
    assert Run(moved, [IntervalFired(now)], instant) == Tick(moved, now, instant);
  }

  /** A remote value is replaced by a local breakdown at the first tick,
      unless the payload itself carries a truthy `apiSource`. */
  lemma RemoteValueIsRecomputed(s: State, resp: Response, now: int, later: int, instant: string -> int)
    requires HandleSubmit(s, resp, now, instant).countdown.Remote?
    ensures var r := HandleSubmit(s, resp, now, instant);
      var p := r.countdown.payload;
      Tick(r, later, instant)
        == if TruthyRead(Get(p, ApiSourceKey)) then r
           else r.(countdown := Local(Calculate(instant(s.targetDate), later)))
  {
  }

  /** A server error falls back to the local breakdown, with no error shown. */
  lemma ServerErrorFallsBack(s: State, now: int, instant: string -> int)
    ensures var r := HandleSubmit(s, Received(500, Some(JNull)), now, instant);
      r.countdown == Local(Calculate(instant(s.targetDate), now)) && r.error == None
  {
  }

  /** An ok response whose body is an empty object, with no breakdown in it,
      is kept as the countdown rather than falling back. */
  lemma EmptyObjectIsAccepted(s: State, now: int, instant: string -> int)
    ensures HandleSubmit(s, Received(200, Some(JObject(map[]))), now, instant).countdown
         == Remote(JObject(map[]))
  {
    RemoteAcceptedIff(Received(200, Some(JObject(map[]))));
  }

  /** While a local countdown's seconds field is positive, the next tick one
      second later lowers it by one and changes nothing else. */
  lemma TickOneSecondLater(s: State, now: int, instant: string -> int)
    requires s.countdown == Local(Calculate(instant(s.targetDate), now))
    requires s.countdown.breakdown.seconds >= 1
    requires instant(s.targetDate) - (now + SecondMs) > 0
    ensures var b := s.countdown.breakdown;
      Tick(s, now + SecondMs, instant) == s.(countdown := Local(b.(seconds := b.seconds - 1)))
  {
    SecondsCountDown(instant(s.targetDate), now);
  }
}
